=== FILE: README.md ===
# rustapo evaluator core, modelled in Dafny

rustapo evaluates short Lua boolean expressions against caller-supplied
variables. Its core is the evaluator layer: one long-lived Lua runtime whose
global namespace is shared by short-lived *evaluation instances*. An instance
declares typed variables as globals, evaluates one expression, and on drop
unbinds every name it declared, so that one request's variables do not leak
into the next. Around it sit the host built-ins registered at start-up
(`info`, `debug`, `warn`, `min`, `max`, `avg`, `sum`), the typed argument
marshaller they use, and the boolean evaluation result.

The model is functional. The shared global namespace is an explicit
`Globals` value (a `map<string, Value>` that never stores `nil`; assigning
`nil` removes the key). An `Instance` pairs the current globals with the
instance's own declared-name set, and every operation is a pure transition
function. The interpreter itself is an `Interpreter` value of two opaque
function-typed fields: `assign`, which accepts or rejects a global store, and
`eval`, which gives a chunk's boolean answer and the globals its side effects
leave behind.

Modules, one per source component:

- `Results`: `Option`, `Result`, `Outcome` (Rust's `Result<(), E>`).
- `Evaluator` (src/evaluator/evaluator.rs): `Error`, `BooleanEvaluationResult`, constructors, `IsFaulty`, `GetResult`.
- `TypedVariadic` (src/evaluator/typed_variadic_arguments.rs): `FromLuaMulti`, `GetVaArgs`.
- `Builtins` (the closures and `lua_log` in src/evaluator/lua_evaluator.rs): `LuaMin`, `LuaMax`, `LuaSum`, `LuaAvg`, `LogText`, `Invoke`.
- `Lua`: script values, the global namespace and the interpreter interface.
- `LuaEvaluator` (src/evaluator/lua_evaluator.rs): `NewRuntime`, `Capture`, `DeclareF64`, `DeclareString`, `EvaluateBoolean`, `Drop`, and the leak-freedom theorem.
- `Api` (src/api/mod.rs): the handler's capture, declare, evaluate and drop sequence, used only to state leak freedom across requests.

## Where the code differs from what its names suggest

The model follows the code in these places:

- `max` starts its accumulator at `f64::MAX` and replaces it only by an argument that is not below it. It therefore returns `f64::MAX` for every call whose arguments are finite, not the largest argument (`Builtins.MaxIsSentinelOnF64Range`, `Builtins.MinMaxOfThree`).
- Teardown is not best effort. The loop in `drop` uses `?`, so the first rejected unbind ends it, the names after it keep whatever value they had, and the error is discarded (`LuaEvaluator.Drop`, `LuaEvaluator.TeardownStopsAtFirstFailure`).
- `lua_log` appends a space after every message, the last one included, before the newline. It is not a join: every message, the last included, is followed by a space (`Builtins.LogText`, `Builtins.MessageInPlace`).

## Model

| member | source | states |
|---|---|---|
| `Evaluator.CreateCompleted` | src/evaluator/evaluator.rs:9-14 | a completed result is not faulty, satisfies the faulty-implies-false invariant, and extracting it yields `Ok(b)` |
| `Evaluator.CreateFaulty` | src/evaluator/evaluator.rs:15-20 | a faulty result is faulty, stores `false`, and extracting it yields `Err(e)` with the same error |
| `Evaluator.IsFaulty` | src/evaluator/evaluator.rs:22-24 | a result is faulty exactly when its error field is present |
| `Evaluator.GetResult` | src/evaluator/evaluator.rs:22-31 | extraction fails exactly when the error field is present, and then with that error; otherwise it yields the stored boolean |
| `Evaluator.FromInterpreter` | src/evaluator/lua_evaluator.rs:117-124 | the interpreter's answer becomes a well-formed result that is faulty exactly when the answer is an error |
| `Evaluator.ExtractAfterWrap` | src/evaluator/evaluator.rs:9-31 | round trip: extracting a wrapped interpreter answer gives that answer back, for both `Ok` and `Err` |
| `Evaluator.WrapAfterExtract` | src/evaluator/evaluator.rs:9-31 | converse round trip: every result satisfying the constructors' invariant is the wrapping of what it extracts to |
| `Evaluator.RoundTripNeedsInvariant` | src/evaluator/evaluator.rs:3-6 | the struct type admits a value (error plus `true`) that the round trip does not preserve, so the invariant is needed |
| `TypedVariadic.FromLuaMulti` | src/evaluator/typed_variadic_arguments.rs:12-21 | marshalling succeeds iff every argument converts; on success the output has the input's length and element `i` is argument `i` converted; on failure the error is that of the first argument, in argument order, that does not convert |
| `TypedVariadic.GetVaArgs` | src/evaluator/typed_variadic_arguments.rs:30-32 | the host function sees the stored argument sequence unchanged |
| `TypedVariadic.MarshalledValues` | src/evaluator/typed_variadic_arguments.rs:12-32 | when every argument converts, what the host function reads through `get_va_args` is exactly the converted arguments in argument order |
| `TypedVariadic.EmptyArguments` | src/evaluator/typed_variadic_arguments.rs:13-20 | an empty argument list marshals to an empty sequence |
| `TypedVariadic.MarshalRoundTrip` | src/evaluator/typed_variadic_arguments.rs:12-32 | script values made from host values by an injection that the conversion undoes reach the host function, through `get_va_args`, as exactly those host values in order |
| `TypedVariadic.LaterArgumentsIgnored` | src/evaluator/typed_variadic_arguments.rs:14-15 | once an argument fails to convert, appending more arguments does not change the outcome: the loop never looks past the first failure |
| `Builtins.GlobalNameInjective` | src/evaluator/lua_evaluator.rs:86-92 | the seven built-ins are registered under seven distinct global names |
| `Builtins.LuaMin` | src/evaluator/lua_evaluator.rs:51-57 | `min` returns a value at most `f64::MAX` and at most every argument, which is either `f64::MAX` or one of the arguments |
| `Builtins.LuaMax` | src/evaluator/lua_evaluator.rs:58-64 | `max` returns a value at least `f64::MAX` and at least every argument, which is either `f64::MAX` or one of the arguments |
| `Builtins.MinIsLeastArgument` | src/evaluator/lua_evaluator.rs:51-57 | when some argument is at most `f64::MAX`, `min` returns an argument that no argument is below |
| `Builtins.MaxIsSentinelOnF64Range` | src/evaluator/lua_evaluator.rs:58-64 | when every argument is at most `f64::MAX`, as every finite `f64` is, `max` returns `f64::MAX` |
| `Builtins.MinMaxOfThree` | src/evaluator/lua_evaluator.rs:51-64 | `min(3, 1, 2)` is 1, while `max(3, 1, 2)` is `f64::MAX` and not 3 |
| `Builtins.LuaSum` | src/evaluator/lua_evaluator.rs:78-85 | `sum` of no arguments is 0 and of one argument is that argument; `SumAppend` and `SumBounds` relate it to its parts and bounds |
| `Builtins.LuaAvg` | src/evaluator/lua_evaluator.rs:65-77 | `avg` of no arguments is 0; otherwise `avg` times the argument count equals `sum` |
| `Builtins.EmptySumAndAvg` | src/evaluator/lua_evaluator.rs:65-85 | `sum()` and `avg()` are both 0 |
| `Builtins.SumAppend` | src/evaluator/lua_evaluator.rs:78-85 | the running sum over a concatenation is the sum of the parts' sums |
| `Builtins.SumBounds` | src/evaluator/lua_evaluator.rs:78-85 | the sum of `n` arguments that lie in `[lo, hi]` lies in `[n * lo, n * hi]` |
| `Builtins.AvgWithinBounds` | src/evaluator/lua_evaluator.rs:65-77 | the average of a non-empty call whose arguments lie in `[lo, hi]` lies in `[lo, hi]` |
| `Builtins.MinAtMostAvg` | src/evaluator/lua_evaluator.rs:51-77 | for a non-empty call, `min` is never above `avg` |
| `Builtins.Assemble` | src/evaluator/lua_evaluator.rs:20-24 | the builder text: empty for no messages; otherwise it ends with the last message verbatim followed by one space (`MessageInPlace` places every other message) |
| `Builtins.LogText` | src/evaluator/lua_evaluator.rs:19-25 | the log text always ends in a newline, has a space right before it whenever there is a message, and is exactly `"\n"` for no messages |
| `Builtins.AssembleAppend` | src/evaluator/lua_evaluator.rs:20-24 | the assembled text of a concatenation of message lists is the concatenation of their assembled texts |
| `Builtins.MessageInPlace` | src/evaluator/lua_evaluator.rs:20-24 | message `i` appears verbatim right after the text for the messages before it, followed by exactly one space |
| `Builtins.LogTextLength` | src/evaluator/lua_evaluator.rs:19-25 | the log text is as long as all messages together, plus one space per message, plus the newline |
| `Builtins.Invoke` | src/evaluator/lua_evaluator.rs:39-85 | a built-in call succeeds iff every argument converts to the closure's parameter type, and otherwise fails with the first failing argument's error; a numeric built-in returns its fold (`LuaMin`, `LuaMax`, `LuaAvg`, `LuaSum`) of the converted arguments; a logging built-in emits one record at its own severity whose text is `LogText` of the converted messages |
| `LuaEvaluator.NewRuntime` | src/evaluator/lua_evaluator.rs:86-92 | a new runtime's globals hold each of the seven built-ins under its own name, and nothing besides them among the globals this model tracks (the standard library is left out) |
| `LuaEvaluator.Capture` | src/evaluator/lua_evaluator.rs:166-168 | a captured instance works on the runtime's globals as they stand, starts with an empty declared set, and so trivially satisfies the frame invariant (nothing outside the declared set changed) |
| `LuaEvaluator.Declare` | src/evaluator/lua_evaluator.rs:127-149 | the name is added to the declared set whether or not the store is accepted; an accepted store makes the name read as the given value, replacing any earlier binding; a rejected one leaves the globals unchanged; no other global changes either way |
| `LuaEvaluator.DeclareF64` | src/evaluator/lua_evaluator.rs:127-137 | `declare_f64` adds the name to the declared set, keeping the earlier names, whether or not the store is accepted; the outcome is the interpreter's verdict on the store; if accepted the name reads as that number, if rejected the globals are unchanged; every other global is unchanged either way |
| `LuaEvaluator.DeclareString` | src/evaluator/lua_evaluator.rs:139-149 | `declare_string` adds the name to the declared set, keeping the earlier names, whether or not the store is accepted; the outcome is the interpreter's verdict on the store; if accepted the name reads as that string, if rejected the globals are unchanged; every other global is unchanged either way |
| `LuaEvaluator.DeclareKeepsFrame` | src/evaluator/lua_evaluator.rs:128-136 | declaring preserves the frame invariant: every global the instance changed is in its declared set |
| `LuaEvaluator.EvaluateBoolean` | src/evaluator/lua_evaluator.rs:112-125 | evaluation leaves the declared set unchanged, returns a well-formed result that extracts to exactly the interpreter's answer, leaves the shared globals as the script left them (its writes persist), and changes nothing when the interpreter is read-only |
| `LuaEvaluator.Unbind` | src/evaluator/lua_evaluator.rs:155-161 | the teardown loop unbinds a prefix of the names, every store in that prefix having been accepted on the globals with the earlier names already unbound, and leaves exactly the globals with that prefix removed; every name outside that prefix reads as before; if it stopped early, the store at the stopping point was rejected |
| `LuaEvaluator.Drop` | src/evaluator/lua_evaluator.rs:152-163 | drop never touches a global outside the declared set; every unbind before the stopping point was accepted and its name is unbound; a complete teardown leaves every declared name unbound; an aborted one stopped at a rejected unbind and left every later name as it was; if unbinding the declared names is never rejected, teardown completes |
| `LuaEvaluator.LeakFreedom` | src/evaluator/lua_evaluator.rs:152-163 | for an instance that kept the frame invariant since capture, a drop whose unbinds are accepted leaves exactly the globals at capture minus every declared name; shadowed bindings are not restored |
| `LuaEvaluator.RejectedDeclarationCleanedUp` | src/evaluator/lua_evaluator.rs:127-162 | a name whose store was rejected is still recorded, so a drop with accepted unbinds leaves it unbound: no orphaned global, even if it was bound before |
| `LuaEvaluator.ShadowedBuiltinNotRestored` | src/evaluator/lua_evaluator.rs:127-162 | declaring `min` over the built-in and dropping the instance leaves no `min` at all |
| `LuaEvaluator.TeardownStopsAtFirstFailure` | src/evaluator/lua_evaluator.rs:155-158 | when unbinding the first name is rejected, teardown releases nothing and a later declared name keeps its value |
| `Api.DeclareEach` | src/api/mod.rs:44-61 | declaring a list of variables with early return declares a subset of their names (all of them when no store was rejected) and changes no global outside what it declared |
| `Api.Serve` | src/api/mod.rs:42-74 | the handler's instance declares only names the request asked for, all of them whenever it answers with a value, and with a read-only interpreter keeps the frame invariant against the globals it found |
| `Api.RequestUnbindsItsNames` | src/api/mod.rs:42-74 | for any interpreter, including scripts that write globals: after the drop with accepted unbinds, the next request reads every name this request declared as `nil` and every other global as this request left it |
| `Api.RequestLeavesNoTrace` | src/api/mod.rs:42-74 | after a request's instance is dropped with its unbinds accepted, the next captured instance sees the globals the request found minus the names it declared, each of which reads as `nil` |

## Left out

- Lua parsing, execution and value conversion belong to the interpreter library. They are opaque: `Interpreter.eval` for `load(..).eval::<bool>()` and its side effects, `Interpreter.assign` for whether a global store is accepted, and the `toNumber`/`toText` parameters of `Builtins.Invoke` for `FromLua`.
- LuaEvaluator.Declare: a rejected store is modelled as leaving the globals unchanged; what the interpreter does internally before rejecting a store is not known here.
- LuaEvaluator.Drop: the iteration order of the declared hash set is unspecified, so it is a parameter (`order`, any enumeration of the set). The result also reports how many names were released; the source discards the error and reports nothing.
- LuaEvaluator.LeakFreedom: stated for a read-only interpreter at the request level (`Api.RequestLeavesNoTrace`); globals that a script itself creates outside the declared set are not cleaned up by the source either.
- LuaEvaluator.NewRuntime: `Lua::new()` also installs the Lua standard-library globals (`print`, `string`, `math`, `_G`, ...); these are not modelled, and neither are values other than numbers, strings and the seven built-ins (tables, booleans, other functions). Stores are raw assignments, so a `__newindex` metatable on the global table is not modelled either.
- Construction-time registration failure and its panic (src/evaluator/lua_evaluator.rs:94-96): registration is modelled as always succeeding, giving `NewRuntime`.
- `f64` arithmetic: numbers are idealised as `real`, so rounding, NaN and infinity are not modelled; `f64::MAX` is kept exactly.
- The `log!` emission and the UTF-8 error branch of `lua_log` (src/evaluator/lua_evaluator.rs:26-30) are I/O and library behaviour; only the message assembly and severity are modelled.
- `Rc`/`RefCell` sharing and the consuming `get_result(self)`: ownership is not expressed; the globals are threaded explicitly instead.
- The HTTP layer of src/api/mod.rs (JSON decoding, status codes, error payloads) and src/main.rs (server start-up, environment, port binding) are not part of this model; `Api` keeps only the order of calls the handler makes.
- Concurrency across server workers: each worker builds its own runtime, so one runtime is used sequentially.

=== FILE: api.dfy ===
/** The order in which the request handler drives one instance
    (src/api/mod.rs): capture, declare every string variable, then every
    number variable, returning early on the first rejected declaration, then
    evaluate once; the instance is dropped whichever way the handler exits.
    The request's hash maps are given as lists, in their (unspecified)
    iteration order. HTTP decoding and encoding are not modelled. */
module Api {
  import opened Results
  import opened Evaluator
  import opened Lua
  import opened LuaEvaluator

  /** The decoded request body. */
  datatype Request = Request(
    expression: string,
    numbers: Option<seq<(string, real)>>,
    strings: Option<seq<(string, string)>>)

  /** The variables a request asks for, as values to bind. */
  function Bindings(req: Request): (b: seq<(string, Value)>)
    ensures forall i | 0 <= i < |b| :: b[i].1 != Nil
  {
    var strings := if req.strings.Some? then req.strings.value else [];
    var numbers := if req.numbers.Some? then req.numbers.value else [];
    seq(|strings|, i requires 0 <= i < |strings| => (strings[i].0, Str(strings[i].1)))
    + seq(|numbers|, i requires 0 <= i < |numbers| => (numbers[i].0, Num(numbers[i].1)))
  }

  /** The names a list of bindings would declare. */
  function Names(b: seq<(string, Value)>): set<string> {
    set i | 0 <= i < |b| :: b[i].0
  }

  /** Declare each binding in turn, stopping at the first rejected one. */
  function DeclareEach(s: Instance, b: seq<(string, Value)>, lua: Interpreter): (res: (Instance, Outcome<Error>))
    requires forall i | 0 <= i < |b| :: b[i].1 != Nil
    ensures s.declared <= res.0.declared <= s.declared + Names(b)
    ensures res.1.Pass? ==> res.0.declared == s.declared + Names(b)
    ensures forall k | k !in res.0.declared :: Lookup(res.0.globals, k) == Lookup(s.globals, k)
    decreases |b|
  {
    if |b| == 0 then (s, Pass)
    else
      var first := Declare(s, b[0].0, b[0].1, lua);
      if first.1.Fail? then first
      else
        var rest := DeclareEach(first.0, b[1..], lua);
        assert Names(b) == {b[0].0} + Names(b[1..]) by {
          forall n | n in Names(b) ensures n in {b[0].0} + Names(b[1..]) {
            var i :| 0 <= i < |b| && b[i].0 == n;
            if i > 0 { assert b[1..][i - 1].0 == n; }
          }
        }
        rest
  }

  /** The handler up to the point where the instance goes out of scope: the
      response, and the instance as it stands then. A rejected declaration
      answers with its error and skips the evaluation. */
  function Serve(g: Globals, req: Request, lua: Interpreter): (res: (Result<bool, Error>, Instance))
    ensures res.1.declared <= Names(Bindings(req))
    ensures res.0.Ok? ==> res.1.declared == Names(Bindings(req))
    ensures ReadOnly(lua) ==> Frame(g, res.1)
  {
    var declared := DeclareEach(Capture(g), Bindings(req), lua);
    if declared.1.Fail? then (Err(declared.1.error), declared.0)
    else
      var evaluated := EvaluateBoolean(declared.0, req.expression, lua);
      (GetResult(evaluated.0), evaluated.1)
  }

  /** Leak freedom across requests: once the handler's instance is dropped
      with its unbinds accepted, the shared globals are what the request
      found, minus the names it declared; so the next request, which
      captures these globals, reads every one of those names as `nil`. */
  lemma RequestLeavesNoTrace(g: Globals, req: Request, lua: Interpreter, order: seq<string>)
    requires ReadOnly(lua)
    requires Enumerates(order, Serve(g, req, lua).1.declared)
    requires UnbindAccepted(lua, Serve(g, req, lua).1.declared)
    ensures var s := Serve(g, req, lua).1;
            var next := Capture(Drop(s, order, lua).globals);
            && next.globals == g - s.declared
            && forall n | n in s.declared :: Lookup(next.globals, n) == Nil
  {
    var s := Serve(g, req, lua).1;
    LeakFreedom(g, s, order, lua);
  }

  /** Whatever the script did to the globals, once the handler's instance is
      dropped with its unbinds accepted, the next request reads every name
      this request declared as `nil`, and every other global as the request
      left it. */
  lemma RequestUnbindsItsNames(g: Globals, req: Request, lua: Interpreter, order: seq<string>)
    requires Enumerates(order, Serve(g, req, lua).1.declared)
    requires UnbindAccepted(lua, Serve(g, req, lua).1.declared)
    ensures var s := Serve(g, req, lua).1;
            var next := Capture(Drop(s, order, lua).globals);
            && (forall n | n in s.declared :: Lookup(next.globals, n) == Nil)
            && (forall k | k !in s.declared :: Lookup(next.globals, k) == Lookup(s.globals, k))
  {
  }
}

=== FILE: builtins.dfy ===
/** The host functions registered into the interpreter's globals at start-up
    (the closures built in `LuaEvaluator::new`, src/evaluator/lua_evaluator.rs)
    and the message assembly of `lua_log`. Numbers are idealised as `real`:
    no rounding, NaN or infinity. */
module Builtins {
  import opened Results
  import TypedVariadic

  /** `f64::MAX`, the start value of both `min` and `max`, written out exactly. */
  const MAX: real := 179769313486231570814527423731704356798070567525844996598917476803157260780028538760589558632766878171540458953514382464234321326889464182768467546703537516986049910576551282076245490090389328944075868508455133942304583236903222948165808559332123348274797826204144723168738177180919299881250404026184124858368.0

  /** The seven host functions. */
  datatype BuiltinId = Info | Debug | Warn | Min | Max | Avg | Sum

  /** The severity a logging built-in emits at. */
  datatype Severity = DebugLevel | InfoLevel | WarnLevel

  /** One emitted log record. */
  datatype LogLine = LogLine(level: Severity, text: string)

  /** The effect of a successful built-in call: a number handed back to the
      script, or (for the logging built-ins, which return nothing) the record
      emitted to the log. */
  datatype Returned = Logged(line: LogLine) | Number(x: real)

  /** The global name each built-in is registered under. */
  function GlobalName(f: BuiltinId): string {
    match f
    case Info => "info"
    case Debug => "debug"
    case Warn => "warn"
    case Min => "min"
    case Max => "max"
    case Avg => "avg"
    case Sum => "sum"
  }

  /** Distinct built-ins are registered under distinct names. */
  lemma GlobalNameInjective()
    ensures forall f: BuiltinId, g: BuiltinId :: GlobalName(f) == GlobalName(g) ==> f == g
  {
  }

  // ---------------------------------------------------------------- min / max

  /** `min`: the accumulator starts at `MAX` and takes each argument, front to
      back, that is strictly below it. */
  function LuaMin(xs: seq<real>): (r: real)
    ensures r <= MAX
    ensures forall i | 0 <= i < |xs| :: r <= xs[i]
    ensures r == MAX || r in xs
  {
    if |xs| == 0 then MAX
    else
      var current := LuaMin(xs[..|xs| - 1]);
      var x := xs[|xs| - 1];
      if x < current then x else current
  }

  /** `max`: the accumulator also starts at `MAX` and is replaced by each
      argument, front to back, that is not below it. So it never drops below
      `MAX`, and it only leaves `MAX` for an argument above `MAX`. */
  function LuaMax(xs: seq<real>): (r: real)
    ensures MAX <= r
    ensures forall i | 0 <= i < |xs| :: xs[i] <= r
    ensures r == MAX || r in xs
  {
    if |xs| == 0 then MAX
    else
      var current := LuaMax(xs[..|xs| - 1]);
      var x := xs[|xs| - 1];
      if x < current then current else x
  }

  /** `min` returns the least argument whenever some argument is at most `MAX`
      (every finite `f64` is). */
  lemma MinIsLeastArgument(xs: seq<real>, k: int)
    requires 0 <= k < |xs| && xs[k] <= MAX
    ensures LuaMin(xs) in xs
    ensures forall i | 0 <= i < |xs| :: LuaMin(xs) <= xs[i]
  {
  }

  /** `max` over arguments that are all at most `MAX` (every finite `f64` is)
      returns `MAX`, not the largest argument. */
  lemma MaxIsSentinelOnF64Range(xs: seq<real>)
    requires forall i | 0 <= i < |xs| :: xs[i] <= MAX
    ensures LuaMax(xs) == MAX
  {
  }

  /** A worked call: `min(3, 1, 2)` is 1, while `max(3, 1, 2)` is
      `MAX` rather than 3. */
  lemma MinMaxOfThree()
    ensures LuaMin([3.0, 1.0, 2.0]) == 1.0
    ensures LuaMax([3.0, 1.0, 2.0]) == MAX
  {
  }

  // ---------------------------------------------------------------- sum / avg

  /** `sum`: left-to-right accumulation from 0. */
  function LuaSum(xs: seq<real>): (r: real)
    ensures |xs| == 0 ==> r == 0.0
    ensures |xs| == 1 ==> r == xs[0]
  {
    if |xs| == 0 then 0.0 else LuaSum(xs[..|xs| - 1]) + xs[|xs| - 1]
  }

  /** `avg`: 0 for no arguments, otherwise the sum divided by the count. */
  function LuaAvg(xs: seq<real>): (r: real)
    ensures |xs| == 0 ==> r == 0.0
    ensures |xs| > 0 ==> r * (|xs| as real) == LuaSum(xs)
  {
    if |xs| == 0 then 0.0 else LuaSum(xs) / (|xs| as real)
  }

  /** Summing a concatenation sums the parts. */
  lemma {:induction false} SumAppend(a: seq<real>, b: seq<real>)
    ensures LuaSum(a + b) == LuaSum(a) + LuaSum(b)
    decreases |b|
  {
    if |b| == 0 {
      assert a + b == a;
    } else {
      var b' := b[..|b| - 1];
      assert (a + b)[..|a + b| - 1] == a + b';
      SumAppend(a, b');
    }
  }

  /** Summing `n` arguments that all lie in `[lo, hi]` gives a value in
      `[n * lo, n * hi]`. */
  lemma {:induction false} SumBounds(xs: seq<real>, lo: real, hi: real)
    requires forall i | 0 <= i < |xs| :: lo <= xs[i] <= hi
    ensures (|xs| as real) * lo <= LuaSum(xs) <= (|xs| as real) * hi
  {
    if |xs| > 0 {
      var init := xs[..|xs| - 1];
      assert forall i | 0 <= i < |init| :: init[i] == xs[i];
      SumBounds(init, lo, hi);
      var m := |init| as real;
      assert (|xs| as real) * lo == m * lo + lo;
      assert (|xs| as real) * hi == m * hi + hi;
    }
  }

  /** The average of arguments that all lie in `[lo, hi]` lies there too. */
  lemma AvgWithinBounds(xs: seq<real>, lo: real, hi: real)
    requires |xs| > 0
    requires forall i | 0 <= i < |xs| :: lo <= xs[i] <= hi
    ensures lo <= LuaAvg(xs) <= hi
  {
    SumBounds(xs, lo, hi);
    MeanBetween(LuaSum(xs), LuaAvg(xs), |xs| as real, lo, hi);
  }

  /** The average of a non-empty call is never below what `min` returns. */
  lemma MinAtMostAvg(xs: seq<real>)
    requires |xs| > 0
    ensures LuaMin(xs) <= LuaAvg(xs)
  {
    var m := LuaMin(xs);
    var top := LuaMax(xs);
    assert forall i | 0 <= i < |xs| :: m <= xs[i] <= top;
    AvgWithinBounds(xs, m, top);
  }

  /** A mean of a total that lies between `n * lo` and `n * hi` lies between
      `lo` and `hi`. */
  lemma MeanBetween(total: real, mean: real, n: real, lo: real, hi: real)
    requires n > 0.0 && mean * n == total
    requires n * lo <= total <= n * hi
    ensures lo <= mean <= hi
  {
    assert (mean - lo) * n >= 0.0;
    assert (hi - mean) * n >= 0.0;
  }

  /** `sum` and `avg` of no arguments are both 0. */
  lemma EmptySumAndAvg()
    ensures LuaSum([]) == 0.0 && LuaAvg([]) == 0.0
  {
  }

  // ---------------------------------------------------------------- lua_log

  /** The string builder of `lua_log` before its final newline: each message
      followed by one space, front to back. */
  function Assemble(messages: seq<string>): (text: string)
    ensures messages == [] ==> text == ""
    ensures messages != [] ==> EndsWith(text, messages[|messages| - 1] + " ")
  {
    if |messages| == 0 then ""
    else Assemble(messages[..|messages| - 1]) + messages[|messages| - 1] + " "
  }

  /** `text` finishes with `suffix`. */
  predicate EndsWith(text: string, suffix: string) {
    |suffix| <= |text| && text[|text| - |suffix|..] == suffix
  }

  /** The full text `lua_log` emits: the assembled messages, then a newline. */
  function LogText(messages: seq<string>): (text: string)
    ensures |text| > 0 && text[|text| - 1] == '\n'
    ensures |messages| > 0 ==> |text| >= 2 && text[|text| - 2] == ' '
    ensures messages == [] ==> text == "\n"
  {
    Assemble(messages) + "\n"
  }

  /** Assembling a concatenation assembles the parts. */
  lemma {:induction false} AssembleAppend(a: seq<string>, b: seq<string>)
    ensures Assemble(a + b) == Assemble(a) + Assemble(b)
    decreases |b|
  {
    if |b| == 0 {
      assert a + b == a;
    } else {
      var b' := b[..|b| - 1];
      assert (a + b)[..|a + b| - 1] == a + b';
      assert (a + b)[|a + b| - 1] == b[|b| - 1];
      AssembleAppend(a, b');
      assert Assemble(a + b) == Assemble(a + b') + b[|b| - 1] + " ";
      assert Assemble(b) == Assemble(b') + b[|b| - 1] + " ";
    }
  }

  /** Content, not just shape: message `i` appears verbatim right after the
      text of the messages before it, and is followed by exactly one space. */
  lemma MessageInPlace(messages: seq<string>, i: int)
    requires 0 <= i < |messages|
    ensures Assemble(messages)
         == Assemble(messages[..i]) + messages[i] + " " + Assemble(messages[i + 1..])
  {
    var front := messages[..i + 1];
    assert messages == front + messages[i + 1..];
    AssembleAppend(front, messages[i + 1..]);
    assert front[..|front| - 1] == messages[..i];
    assert front[|front| - 1] == messages[i];
    assert Assemble(front) == Assemble(messages[..i]) + messages[i] + " ";
  }

  /** The emitted text is as long as all messages together, plus one space per
      message, plus the newline. */
  lemma {:induction false} LogTextLength(messages: seq<string>)
    ensures |LogText(messages)| == TotalLength(messages) + |messages| + 1
  {
    AssembleLength(messages);
  }

  /** Total number of characters across the messages. */
  function TotalLength(messages: seq<string>): nat {
    if |messages| == 0 then 0
    else TotalLength(messages[..|messages| - 1]) + |messages[|messages| - 1]|
  }

  lemma {:induction false} AssembleLength(messages: seq<string>)
    ensures |Assemble(messages)| == TotalLength(messages) + |messages|
  {
    if |messages| > 0 {
      AssembleLength(messages[..|messages| - 1]);
    }
  }

  // ---------------------------------------------------------------- calls

  /** Whether a built-in takes numbers (`min`, `max`, `avg`, `sum`) rather
      than strings (`info`, `debug`, `warn`). */
  predicate IsNumeric(f: BuiltinId) {
    f == Min || f == Max || f == Avg || f == Sum
  }

  /** The numeric built-ins' bodies, applied to marshalled numbers. */
  function ApplyNumeric(f: BuiltinId, xs: seq<real>): real
    requires IsNumeric(f)
  {
    match f
    case Min => LuaMin(xs)
    case Max => LuaMax(xs)
    case Avg => LuaAvg(xs)
    case Sum => LuaSum(xs)
  }

  /** The severity each logging built-in emits at. */
  function SeverityOf(f: BuiltinId): Severity
    requires !IsNumeric(f)
  {
    match f
    case Info => InfoLevel
    case Debug => DebugLevel
    case Warn => WarnLevel
  }

  /** A script's call of built-in `f`: marshal the arguments to the closure's
      parameter type (numbers or strings, by the interpreter's conversions
      `toNumber` and `toText`), then run the closure. A conversion failure
      fails the call with that argument's error before the closure runs. */
  function Invoke<V, E>(f: BuiltinId, args: seq<V>,
                        toNumber: V -> Result<real, E>, toText: V -> Result<string, E>): (r: Result<Returned, E>)
    ensures IsNumeric(f) ==> (r.Ok? <==> TypedVariadic.AllConvert(args, toNumber))
    ensures !IsNumeric(f) ==> (r.Ok? <==> TypedVariadic.AllConvert(args, toText))
    ensures IsNumeric(f) && r.Ok? ==>
              r.value == Number(ApplyNumeric(f, TypedVariadic.Converted(args, toNumber)))
    ensures !IsNumeric(f) && r.Ok? ==>
              && r.value == Logged(LogLine(SeverityOf(f), LogText(TypedVariadic.Converted(args, toText))))
              && |r.value.line.text| == |args| + 1 + TotalLength(TypedVariadic.Converted(args, toText))
    ensures IsNumeric(f) && r.Err? ==>
              exists k :: TypedVariadic.FirstFailureAt(args, toNumber, k) && toNumber(args[k]) == Err(r.error)
    ensures !IsNumeric(f) && r.Err? ==>
              exists k :: TypedVariadic.FirstFailureAt(args, toText, k) && toText(args[k]) == Err(r.error)
  {
    if IsNumeric(f) then
      match TypedVariadic.FromLuaMulti(args, toNumber)
      case Err(e) => Err(e)
      case Ok(xs) =>
        TypedVariadic.MarshalledValues(args, toNumber);
        Ok(Number(ApplyNumeric(f, TypedVariadic.GetVaArgs(xs))))
    else
      match TypedVariadic.FromLuaMulti(args, toText)
      case Err(e) => Err(e)
      case Ok(ms) =>
        var messages := TypedVariadic.GetVaArgs(ms);
        TypedVariadic.MarshalledValues(args, toText);
        LogTextLength(messages);
        Ok(Logged(LogLine(SeverityOf(f), LogText(messages))))
  }
}

=== FILE: evaluator.dfy ===
/** The evaluation result returned by `evaluate_boolean`: an optional error
    plus a boolean, built by two constructors and read by one extractor
    (src/evaluator/evaluator.rs). */
module Evaluator {
  import opened Results

  /** The boxed error of the source; only its message is kept. */
  datatype Error = Error(message: string)

  /** The two-field struct of the source. Nothing in the type forbids a value
      that has both an error and `result == true`; `WellFormed` says which
      values the constructors actually produce. */
  datatype BooleanEvaluationResult = BooleanEvaluationResult(error: Option<Error>, result: bool)

  /** The invariant the two constructors establish: a faulty result stores `false`. */
  predicate WellFormed(r: BooleanEvaluationResult) {
    IsFaulty(r) ==> !r.result
  }

  /** A result is faulty exactly when its error field is present. */
  predicate IsFaulty(r: BooleanEvaluationResult)
    ensures IsFaulty(r) <==> r.error != None
  {
    r.error.Some?
  }

  /** A successful evaluation: not faulty, and the extractor yields `b`. */
  function CreateCompleted(b: bool): (r: BooleanEvaluationResult)
    ensures !IsFaulty(r)
    ensures WellFormed(r)
    ensures GetResult(r) == Ok(b)
  {
    BooleanEvaluationResult(None, b)
  }

  /** A failed evaluation: faulty, stores `false`, and the extractor yields `e`. */
  function CreateFaulty(e: Error): (r: BooleanEvaluationResult)
    ensures IsFaulty(r)
    ensures WellFormed(r)
    ensures !r.result
    ensures GetResult(r) == Err(e)
  {
    BooleanEvaluationResult(Some(e), false)
  }

  /** The extractor: the stored error when faulty, the stored boolean otherwise. */
  function GetResult(r: BooleanEvaluationResult): (res: Result<bool, Error>)
    ensures res.Err? <==> IsFaulty(r)
    ensures res.Ok? ==> res.value == r.result
    ensures res.Err? ==> Some(res.error) == r.error
  {
    if IsFaulty(r) then Err(r.error.value) else Ok(r.result)
  }

  /** How `evaluate_boolean` turns the interpreter's answer into a result:
      `Ok(v)` becomes a completed result, any error a faulty one. */
  function FromInterpreter(answer: Result<bool, Error>): (r: BooleanEvaluationResult)
    ensures WellFormed(r)
    ensures IsFaulty(r) <==> answer.Err?
  {
    match answer
    case Ok(v) => CreateCompleted(v)
    case Err(e) => CreateFaulty(e)
  }

  /** Extracting a wrapped answer gives the answer back. */
  lemma ExtractAfterWrap(answer: Result<bool, Error>)
    ensures GetResult(FromInterpreter(answer)) == answer
  {
  }

  /** Conversely, every well-formed result is the wrapping of what it yields:
      the extractor loses nothing the constructors put in. */
  lemma WrapAfterExtract(r: BooleanEvaluationResult)
    requires WellFormed(r)
    ensures FromInterpreter(GetResult(r)) == r
  {
  }

  /** Without the invariant the round trip fails: a value with an error and a
      stored `true` cannot come back from the extractor. */
  lemma RoundTripNeedsInvariant(e: Error)
    ensures FromInterpreter(GetResult(BooleanEvaluationResult(Some(e), true)))
         != BooleanEvaluationResult(Some(e), true)
  {
  }
}

=== FILE: lua.dfy ===
/** The part of the interpreter the evaluator touches: its global namespace
    and the two interpreter services it calls, assigning a global and
    evaluating a chunk. Parsing, execution and value conversion belong to
    the interpreter library and are opaque parameters here. */
module Lua {
  import opened Results
  import opened Evaluator
  import Builtins

  /** A script value as far as the evaluator sees it. */
  datatype Value = Nil | Num(x: real) | Str(s: string) | Builtin(id: Builtins.BuiltinId)

  /** The global table never stores `nil`: assigning `nil` removes the key. */
  predicate NoNil(m: map<string, Value>) {
    forall k | k in m :: m[k] != Nil
  }

  /** The shared global namespace. */
  type Globals = m: map<string, Value> | NoNil(m) witness map[]

  /** Reading a global: an unbound name reads as `nil`. */
  function Lookup(g: Globals, name: string): (v: Value)
    ensures v == Nil <==> name !in g
  {
    if name in g then g[name] else Nil
  }

  /** Raw assignment `_G[name] = v`: `nil` unbinds, anything else (re)binds. */
  function Assign(g: Globals, name: string, v: Value): (g': Globals)
    ensures Lookup(g', name) == v
    ensures forall k | k != name :: Lookup(g', k) == Lookup(g, k)
  {
    if v == Nil then g - {name} else g[name := v]
  }

  /** Two namespaces that read alike everywhere are the same namespace. */
  lemma LookupExtensional(a: Globals, b: Globals)
    requires forall k :: Lookup(a, k) == Lookup(b, k)
    ensures a == b
  {
    assert a.Keys == b.Keys by {
      forall k ensures k in a <==> k in b {
        assert Lookup(a, k) == Lookup(b, k);
      }
    }
    forall k | k in a ensures a[k] == b[k] {
      assert Lookup(a, k) == Lookup(b, k);
    }
  }

  /** The interpreter services, left uninterpreted:
      - `assign(g, name, v)`: whether setting global `name` to `v` in state
        `g` is rejected (and with which error); when accepted the effect is
        `Assign(g, name, v)`, when rejected the globals are unchanged;
      - `eval(g, chunk)`: loading and running `chunk` in state `g`, coercing
        its value to a boolean; the answer, and the globals the script's own
        side effects leave behind. */
  datatype Interpreter = Interpreter(
    assign: (Globals, string, Value) -> Outcome<Error>,
    eval: (Globals, string) -> (Result<bool, Error>, Globals))

  /** Evaluation leaves the globals as it found them. */
  ghost predicate ReadOnly(lua: Interpreter) {
    forall g: Globals, chunk: string :: lua.eval(g, chunk).1 == g
  }

  /** Unbinding any of `names` is never rejected. */
  ghost predicate UnbindAccepted(lua: Interpreter, names: set<string>) {
    forall g: Globals, n: string | n in names :: lua.assign(g, n, Nil).Pass?
  }

  /** One store into the globals: rejected, or performed as a raw assignment. */
  function Store(lua: Interpreter, g: Globals, name: string, v: Value): (res: (Globals, Outcome<Error>))
    ensures res.1 == lua.assign(g, name, v)
    ensures res.1.Fail? ==> res.0 == g
    ensures res.1.Pass? ==> Lookup(res.0, name) == v
    ensures forall k | k != name :: Lookup(res.0, k) == Lookup(g, k)
  {
    match lua.assign(g, name, v)
    case Pass => (Assign(g, name, v), Pass)
    case Fail(e) => (g, Fail(e))
  }
}

=== FILE: lua_evaluator.dfy ===
/** The evaluator runtime and its evaluation instances
    (src/evaluator/lua_evaluator.rs). Every instance of one runtime works on
    the runtime's single global namespace; an instance records the names it
    declares so that dropping it unbinds them again. The shared namespace is
    threaded through explicitly: an `Instance` carries the globals as they
    stand together with its own declared-name set. */
module LuaEvaluator {
  import opened Results
  import opened Evaluator
  import opened Lua
  import opened Builtins

  /** The globals of a freshly built runtime: the seven built-ins, each under
      its own name, and nothing else among the globals modelled here (the
      Lua standard library is not modelled). */
  function NewRuntime(): (g: Globals)
    ensures forall f: BuiltinId :: GlobalName(f) in g && g[GlobalName(f)] == Builtin(f)
    ensures forall k | k in g :: g[k].Builtin? && GlobalName(g[k].id) == k
  {
    GlobalNameInjective();
    map f: BuiltinId | f in AllBuiltins :: GlobalName(f) := Builtin(f)
  }

  /** Every built-in, in registration order. */
  const AllBuiltins: seq<BuiltinId> := [Info, Debug, Warn, Min, Max, Avg, Sum]

  /** An evaluation instance together with the shared globals it operates on. */
  datatype Instance = Instance(globals: Globals, declared: set<string>)

  /** `capture`: a new instance on the runtime's globals, with nothing declared
      yet and so nothing to clean up. */
  function Capture(g: Globals): (s: Instance)
    ensures s.globals == g
    ensures s.declared == {}
    ensures Frame(g, s)
  {
    Instance(g, {})
  }

  /** Every global outside the instance's declared set reads as it did in
      `g0`: the instance has touched nothing it will not clean up. */
  ghost predicate Frame(g0: Globals, s: Instance) {
    forall k | k !in s.declared :: Lookup(s.globals, k) == Lookup(g0, k)
  }

  /** The shared body of `declare_f64` and `declare_string`: record `name`
      first, then attempt the store. The name stays recorded even when the
      store is rejected; an accepted store binds exactly `name` to `v`,
      replacing whatever it was bound to (a built-in included). */
  function Declare(s: Instance, name: string, v: Value, lua: Interpreter): (res: (Instance, Outcome<Error>))
    requires v != Nil
    ensures res.0.declared == s.declared + {name}
    ensures res.1 == lua.assign(s.globals, name, v)
    ensures res.1.Pass? ==> Lookup(res.0.globals, name) == v
    ensures res.1.Fail? ==> res.0.globals == s.globals
    ensures forall k | k != name :: Lookup(res.0.globals, k) == Lookup(s.globals, k)
  {
    var recorded := s.(declared := s.declared + {name});
    var stored := Store(lua, recorded.globals, name, v);
    (recorded.(globals := stored.0), stored.1)
  }

  /** `declare_f64`. */
  function DeclareF64(s: Instance, name: string, value: real, lua: Interpreter): (res: (Instance, Outcome<Error>))
    ensures res.0.declared == s.declared + {name}
    ensures res.1 == lua.assign(s.globals, name, Num(value))
    ensures res.1.Pass? ==> Lookup(res.0.globals, name) == Num(value)
    ensures res.1.Fail? ==> res.0.globals == s.globals
    ensures forall k | k != name :: Lookup(res.0.globals, k) == Lookup(s.globals, k)
  {
    Declare(s, name, Num(value), lua)
  }

  /** `declare_string`. */
  function DeclareString(s: Instance, name: string, value: string, lua: Interpreter): (res: (Instance, Outcome<Error>))
    ensures res.0.declared == s.declared + {name}
    ensures res.1 == lua.assign(s.globals, name, Str(value))
    ensures res.1.Pass? ==> Lookup(res.0.globals, name) == Str(value)
    ensures res.1.Fail? ==> res.0.globals == s.globals
    ensures forall k | k != name :: Lookup(res.0.globals, k) == Lookup(s.globals, k)
  {
    Declare(s, name, Str(value), lua)
  }

  /** Declaring keeps the frame: what the instance changed it has recorded. */
  lemma DeclareKeepsFrame(g0: Globals, s: Instance, name: string, v: Value, lua: Interpreter)
    requires v != Nil && Frame(g0, s)
    ensures Frame(g0, Declare(s, name, v, lua).0)
  {
  }

  /** `evaluate_boolean`: run the expression on the current globals. The
      interpreter's `Ok(v)` becomes a completed result and any error a faulty
      one; the declared set is untouched. */
  function EvaluateBoolean(s: Instance, expression: string, lua: Interpreter): (res: (BooleanEvaluationResult, Instance))
    ensures res.1.declared == s.declared
    ensures WellFormed(res.0)
    ensures GetResult(res.0) == lua.eval(s.globals, expression).0
    ensures IsFaulty(res.0) <==> lua.eval(s.globals, expression).0.Err?
    ensures res.1.globals == lua.eval(s.globals, expression).1
    ensures ReadOnly(lua) ==> res.1 == s
  {
    var (answer, after) := lua.eval(s.globals, expression);
    ExtractAfterWrap(answer);
    (FromInterpreter(answer), s.(globals := after))
  }

  /** What teardown leaves behind: the globals, and how many names (from the
      front of the iteration order) it unbound before stopping. */
  datatype Teardown = Teardown(globals: Globals, released: nat)

  /** `order` lists every name of `names` exactly once: one iteration of a
      hash set, whose order is unspecified. */
  ghost predicate Enumerates(order: seq<string>, names: set<string>) {
    && (forall i, j | 0 <= i < j < |order| :: order[i] != order[j])
    && (forall n :: n in names <==> n in order)
  }

  /** The first `n` names of a list, as a set. */
  function Released(names: seq<string>, n: nat): (r: set<string>)
    requires n <= |names|
    ensures forall k :: k in r <==> k in names[..n]
  {
    set j | 0 <= j < n :: names[j]
  }

  /** The globals with every name of `names` unbound. */
  function Without(g: Globals, names: set<string>): (r: Globals)
    ensures forall k :: Lookup(r, k) == if k in names then Nil else Lookup(g, k)
  {
    g - names
  }

  /** Unbinding the first name and then the first `i` of the rest is
      unbinding the first `i + 1` names. */
  lemma UnbindShift(g: Globals, names: seq<string>)
    requires |names| > 0
    ensures Without(g, Released(names, 0)) == g
    ensures forall i | 0 <= i < |names| ::
              Without(Without(g, {names[0]}), Released(names[1..], i)) == Without(g, Released(names, i + 1))
  {
    LookupExtensional(Without(g, Released(names, 0)), g);
    forall i | 0 <= i < |names|
      ensures Without(Without(g, {names[0]}), Released(names[1..], i)) == Without(g, Released(names, i + 1))
    {
      assert names[..i + 1] == [names[0]] + names[1..][..i];
      LookupExtensional(Without(Without(g, {names[0]}), Released(names[1..], i)), Without(g, Released(names, i + 1)));
    }
  }

  /** A teardown of the remaining names, after the first was unbound, is a
      teardown of all the names that goes one name further. */
  lemma UnbindStep(g: Globals, names: seq<string>, lua: Interpreter, rest: Teardown)
    requires |names| > 0
    requires lua.assign(g, names[0], Nil).Pass?
    requires rest.released <= |names| - 1
    requires rest.globals == Without(Without(g, {names[0]}), Released(names[1..], rest.released))
    requires forall i | 0 <= i < rest.released ::
               lua.assign(Without(Without(g, {names[0]}), Released(names[1..], i)), names[1..][i], Nil).Pass?
    ensures rest.globals == Without(g, Released(names, rest.released + 1))
    ensures forall i | 0 <= i < rest.released + 1 :: lua.assign(Without(g, Released(names, i)), names[i], Nil).Pass?
  {
    UnbindShift(g, names);
    forall i | 0 <= i < rest.released + 1
      ensures lua.assign(Without(g, Released(names, i)), names[i], Nil).Pass?
    {
      if i > 0 {
        assert names[i] == names[1..][i - 1];
        assert Without(g, Released(names, i)) == Without(Without(g, {names[0]}), Released(names[1..], i - 1));
      }
    }
  }

  /** The teardown loop: set each name to `nil` in turn, stopping at the
      first store the interpreter rejects. Every store before the stopping
      point was accepted, each on the globals with the names before it
      already unbound; the store at the stopping point, if any, was
      rejected. */
  function Unbind(g: Globals, names: seq<string>, lua: Interpreter): (t: Teardown)
    ensures t.released <= |names|
    ensures t.globals == Without(g, Released(names, t.released))
    ensures forall i | 0 <= i < t.released :: lua.assign(Without(g, Released(names, i)), names[i], Nil).Pass?
    ensures forall i | 0 <= i < t.released :: names[i] !in t.globals
    ensures forall k | k !in names[..t.released] :: Lookup(t.globals, k) == Lookup(g, k)
    ensures t.released < |names| ==> lua.assign(t.globals, names[t.released], Nil).Fail?
  {
    if |names| == 0 then
      LookupExtensional(Without(g, Released(names, 0)), g);
      Teardown(g, 0)
    else
      UnbindShift(g, names);
      var stored := Store(lua, g, names[0], Nil);
      if stored.1.Fail? then Teardown(g, 0)
      else
        assert stored.0 == Without(g, {names[0]}) by {
          LookupExtensional(stored.0, Without(g, {names[0]}));
        }
        var rest := Unbind(stored.0, names[1..], lua);
        UnbindStep(g, names, lua, rest);
        Teardown(rest.globals, rest.released + 1)
  }

  /** `drop`: unbind the declared names in the set's iteration order. It
      stops at the first rejected unbind, so the names after it keep their values,
      and the error goes nowhere. Names that were bound before the instance
      declared them (built-ins included) are not restored; globals outside
      the declared set are not touched. */
  function Drop(s: Instance, order: seq<string>, lua: Interpreter): (t: Teardown)
    requires Enumerates(order, s.declared)
    ensures forall k | k !in s.declared :: Lookup(t.globals, k) == Lookup(s.globals, k)
    ensures t.released <= |order|
    ensures forall i | 0 <= i < t.released :: lua.assign(Without(s.globals, Released(order, i)), order[i], Nil).Pass?
    ensures forall i | 0 <= i < t.released :: order[i] !in t.globals
    ensures t.released == |order| ==> forall k | k in s.declared :: k !in t.globals
    ensures t.released < |order| ==>
              && lua.assign(t.globals, order[t.released], Nil).Fail?
              && forall j | t.released <= j < |order| :: Lookup(t.globals, order[j]) == Lookup(s.globals, order[j])
    ensures UnbindAccepted(lua, s.declared) ==> t.released == |order|
  {
    var t := Unbind(s.globals, order, lua);
    LaterNamesNotReleased(order, t.released);
    t
  }

  /** In a list without repeats, no name after position `n` occurs before it. */
  lemma LaterNamesNotReleased(order: seq<string>, n: nat)
    requires n <= |order|
    requires forall i, j | 0 <= i < j < |order| :: order[i] != order[j]
    ensures forall j | n <= j < |order| :: order[j] !in order[..n]
  {
  }

  /** Leak freedom: for an instance whose changes all lie inside its declared
      set, a drop whose unbinds are accepted leaves exactly the globals the
      instance started from, minus every declared name. */
  lemma LeakFreedom(g0: Globals, s: Instance, order: seq<string>, lua: Interpreter)
    requires Frame(g0, s)
    requires Enumerates(order, s.declared)
    requires UnbindAccepted(lua, s.declared)
    ensures Drop(s, order, lua).globals == g0 - s.declared
  {
    var after := Drop(s, order, lua).globals;
    var expected: Globals := g0 - s.declared;
    forall k
      ensures Lookup(after, k) == Lookup(expected, k)
    {
      if k in s.declared {
        assert k !in after;
      }
    }
    LookupExtensional(after, expected);
  }

  /** A declaration the interpreter rejected is still cleaned up: its name
      was recorded before the store was attempted, so the drop unbinds it. */
  lemma RejectedDeclarationCleanedUp(s: Instance, name: string, v: Value, lua: Interpreter, order: seq<string>)
    requires v != Nil
    requires lua.assign(s.globals, name, v).Fail?
    requires Enumerates(order, Declare(s, name, v, lua).0.declared)
    requires UnbindAccepted(lua, Declare(s, name, v, lua).0.declared)
    ensures name in Declare(s, name, v, lua).0.declared
    ensures name !in Drop(Declare(s, name, v, lua).0, order, lua).globals
  {
  }

  /** A name shadowed by a declaration is gone after the drop, even when it
      held a built-in before: declaring `min` and dropping loses `min`. */
  lemma ShadowedBuiltinNotRestored(value: real, lua: Interpreter)
    requires lua.assign(NewRuntime(), "min", Num(value)).Pass?
    requires UnbindAccepted(lua, {"min"})
    ensures Lookup(NewRuntime(), "min") == Builtin(Min)
    ensures "min" !in Drop(DeclareF64(Capture(NewRuntime()), "min", value, lua).0, ["min"], lua).globals
  {
  }

  /** Teardown is not best effort: when unbinding the first name is rejected,
      a later declared name keeps its binding. */
  lemma TeardownStopsAtFirstFailure()
    ensures var lua := Interpreter(
                         (g: Globals, n: string, v: Value) => if n == "a" && v == Nil then Fail(Error("rejected")) else Pass,
                         (g: Globals, chunk: string) => (Ok(true), g));
            var s := Instance(map["a" := Num(1.0), "b" := Num(2.0)], {"a", "b"});
            var t := Drop(s, ["a", "b"], lua);
            t.released == 0 && Lookup(t.globals, "b") == Num(2.0)
  {
  }
}

=== FILE: results.dfy ===
/** Failure-carrying datatypes shared by the whole model: the shapes of Rust's
    `Option<T>`, `Result<T, E>` and `Result<(), E>`. */
module Results {

  /** Rust's `Option<T>`. */
  datatype Option<+T> = None | Some(value: T)

  /** Rust's `Result<T, E>`. */
  datatype Result<+T, +E> = Ok(value: T) | Err(error: E)

  /** Rust's `Result<(), E>`: success carries nothing. */
  datatype Outcome<+E> = Pass | Fail(error: E)
}

=== FILE: typed_variadic.dfy ===
/** The typed argument marshaller: a script call's dynamically typed argument
    list becomes a homogeneous sequence of one host type, or the call fails
    (src/evaluator/typed_variadic_arguments.rs). The per-value conversion
    `T::from_lua` belongs to the interpreter library, so it is a parameter. */
module TypedVariadic {
  import opened Results

  /** The marshalled argument list handed to a host function. */
  datatype TypedArgs<T> = TypedArgs(args: seq<T>)

  /** Every argument converts. */
  ghost predicate AllConvert<V, T, E>(values: seq<V>, conv: V -> Result<T, E>) {
    forall i | 0 <= i < |values| :: conv(values[i]).Ok?
  }

  /** `k` is the first argument, in argument order, whose conversion fails. */
  ghost predicate FirstFailureAt<V, T, E>(values: seq<V>, conv: V -> Result<T, E>, k: int) {
    && 0 <= k < |values|
    && conv(values[k]).Err?
    && forall j | 0 <= j < k :: conv(values[j]).Ok?
  }

  /** Converts the arguments front to back, stopping at the first one that
      does not convert. Success yields every converted value in argument
      order; failure yields the first failing argument's error and no
      partial list. */
  function FromLuaMulti<V, T, E>(values: seq<V>, conv: V -> Result<T, E>): (r: Result<TypedArgs<T>, E>)
    ensures r.Ok? <==> AllConvert(values, conv)
    ensures r.Ok? ==> |r.value.args| == |values|
    ensures r.Ok? ==> forall i | 0 <= i < |values| :: conv(values[i]) == Ok(r.value.args[i])
    ensures r.Err? ==> exists k :: FirstFailureAt(values, conv, k) && conv(values[k]) == Err(r.error)
  {
    if |values| == 0 then
      Ok(TypedArgs([]))
    else
      match conv(values[0])
      case Err(e) =>
        assert FirstFailureAt(values, conv, 0);
        Err(e)
      case Ok(t) =>
        match FromLuaMulti(values[1..], conv)
        case Err(e) =>
          assert forall k | FirstFailureAt(values[1..], conv, k) :: FirstFailureAt(values, conv, k + 1);
          Err(e)
        case Ok(rest) =>
          Ok(TypedArgs([t] + rest.args))
  }

  /** The host function's view of its arguments: the stored sequence as is. */
  function GetVaArgs<T>(a: TypedArgs<T>): (r: seq<T>)
    ensures r == a.args
  {
    a.args
  }

  /** The converted values of arguments that all convert, in argument order. */
  function Converted<V, T, E>(values: seq<V>, conv: V -> Result<T, E>): (ts: seq<T>)
    requires AllConvert(values, conv)
    ensures |ts| == |values|
    ensures forall i | 0 <= i < |values| :: conv(values[i]) == Ok(ts[i])
  {
    seq(|values|, i requires 0 <= i < |values| => conv(values[i]).value)
  }

  /** Successful marshalling yields exactly the converted values. */
  lemma MarshalledValues<V, T, E>(values: seq<V>, conv: V -> Result<T, E>)
    requires AllConvert(values, conv)
    ensures GetVaArgs(FromLuaMulti(values, conv).value) == Converted(values, conv)
  {
  }

  /** Marshalling an empty argument list succeeds with nothing in it. */
  lemma EmptyArguments<V, T, E>(conv: V -> Result<T, E>)
    ensures FromLuaMulti([], conv) == Ok(TypedArgs([]))
  {
  }

  /** Round trip: script values that were made from host values `ts` by an
      injection the conversion undoes come back to the host as exactly `ts`. */
  lemma {:induction false} MarshalRoundTrip<V, T, E>(ts: seq<T>, inject: T -> V, conv: V -> Result<T, E>)
    requires forall t :: conv(inject(t)) == Ok(t)
    ensures var values := seq(|ts|, i requires 0 <= i < |ts| => inject(ts[i]));
            FromLuaMulti(values, conv).Ok? && GetVaArgs(FromLuaMulti(values, conv).value) == ts
  {
    var values := seq(|ts|, i requires 0 <= i < |ts| => inject(ts[i]));
    assert AllConvert(values, conv) by {
      forall i | 0 <= i < |values|
        ensures conv(values[i]).Ok?
      {
        assert conv(inject(ts[i])) == Ok(ts[i]);
      }
    }
    var r := FromLuaMulti(values, conv);
    forall i | 0 <= i < |ts|
      ensures r.value.args[i] == ts[i]
    {
      assert conv(values[i]) == Ok(r.value.args[i]);
      assert conv(inject(ts[i])) == Ok(ts[i]);
    }
  }

  /** The error is determined by the first failing argument alone: arguments
      after it, whatever they are, do not change the outcome. */
  lemma {:induction false} LaterArgumentsIgnored<V, T, E>(values: seq<V>, more: seq<V>, conv: V -> Result<T, E>)
    requires FromLuaMulti(values, conv).Err?
    ensures FromLuaMulti(values + more, conv) == FromLuaMulti(values, conv)
    decreases |values|
  {
    var all := values + more;
    assert all[0] == values[0];
    assert all[1..] == values[1..] + more;
    match conv(values[0])
    case Err(e) =>
    case Ok(t) =>
      LaterArgumentsIgnored(values[1..], more, conv);
  }
}
